=== FILE: README.md ===
# Library record keeper — Dafny model of `main.py`

`main.py` is an early, single-file revision of a small library-management
program. It keeps three module-level dictionaries (members, books, and the
books issued to each member) and runs an interactive numbered menu. This
project models that program as pure functions over immutable values:

- **Dates** (`dates.dfy`): Python's `datetime.date` as a valid proleptic
  Gregorian triple with years 1..9999. It is compared field by field, as
  Python compares dates. It is subtracted through the day ordinal
  `toordinal()`. A lemma shows the ordinal agrees with the calendar order.
- **Date parsing** (`date_parsing.dfy`): the parsing branch of
  `str_to_date`. The text is split at `/` into day, month and year. Each
  field is read with `int`, and the triple is given to the date
  constructor. Each way this can raise becomes an error value.
- **Text primitives** (`text.dfy`): `str.split` with one separator
  character, `str.join`, the grammar `int(text)` accepts, and `str(n)`.
- **Fines** (`fines.dfy`): the loop of menu option 4. For each of a
  member's issues, when today is strictly after "issued until", the
  "fine amount" is set to the days overdue times `FINE_PER_DAY = 10`.
- **Formatting** (`formatting.dfy`): `format_dict` and `format_books_dict`.
  `format_dict` emits a leading newline, then one line per dictionary entry.
  `format_books_dict` emits a leading newline, then for each entry an
  "ID: id" line followed by that record's own `format_dict` lines.
- **The menu loop** (`library.dfy`): the data at start-up, and one pass of
  the loop as a function. It takes the library, the chosen option, the
  id the option asks for, today's date, and `str.title`. It returns the
  next library and what the pass prints.
- `dicts.dfy` holds Python dictionaries whose order shows: insertion-ordered
  entries with distinct keys. `wrappers.dfy` holds `Option` and `Result`.

The clock (`datetime.date.today()`) and `str.title` are parameters. The
console is not modelled: the operator's replies are arguments, and the
printed text is a result.

This revision differs from the program's later design in two ways, and
the model follows this revision's code. First, this revision has no
issue, renew or extend logic and no 28-day loan period: menu option 7 is
listed, but no branch handles options 5, 6 or 7. The sample loan runs 31
days, 1 October to 1 November 2022. Second, the fine is stored in the
issue record, and it is never cleared.

## Model

| member | source | states |
|---|---|---|
| `DateParsing.ParseDate` | main.py:9-17 | Success needs exactly two `/`; any other count fails with the field count. The parsed day, month and year are the `int` values of the first, second and third fields. |
| `DateParsing.ParseDateSucceeds` | main.py:14-15 | Parsing succeeds exactly when there are three fields, all three are integers, and (year, month, day) is a calendar date. |
| `DateParsing.ParseWrittenFields` | main.py:14-15 | Three numbers written zero-padded as day/month/year parse to exactly what the date constructor makes of them, success or error. |
| `DateParsing.ParseDateToText` | main.py:14-15 | Round trip: reading back a date written as day/month/year gives the same date. |
| `DateParsing.IssuedDateSpelling` | main.py:67 | The start-up text "01/10/2022" is exactly the day/month/year writing of (1, 10, 2022). |
| `DateParsing.IssuedUntilSpelling` | main.py:68 | The start-up text "01/11/2022" is exactly the day/month/year writing of (1, 11, 2022). |
| `DateParsing.SampleIssuedDate` | main.py:67 | The sample "issued date" 01/10/2022 parses to 1 October 2022. |
| `DateParsing.SampleIssuedUntil` | main.py:68 | The sample "issued until" 01/11/2022 parses to 1 November 2022. |
| `DateParsing.NoThirtyFirstOfFebruary` | main.py:15 | 31/02/2022 fails with the constructor's day-out-of-range error. |
| `DateParsing.HugeDayOverflows` | main.py:15 | A day of 10^20 with month 13 fails with `OverflowError`, not the month error. |
| `Dates.MakeDate` | main.py:15 | `datetime.date(y, m, d)` succeeds exactly on valid Gregorian triples. An argument outside the C `int` range raises `OverflowError` before any range check. Otherwise the year error comes first, then the month error, then the day error. |
| `Dates.OverflowBeforeRange` | main.py:15 | A day too large for a C `int` raises `OverflowError` even when the year or month is out of range. |
| `Dates.DaysBetween` | main.py:135 | `(later - earlier).days` is positive exactly when `earlier` comes first, zero exactly on equal dates, and negative exactly when `later` comes first. `Dates.NextDayOrdinal` shows that it counts calendar days. |
| `Dates.NextDay` | main.py:135 | The day after a date is a later date. Only 31 December 9999 has none, where Python's `date + timedelta(days=1)` raises `OverflowError`. |
| `Dates.NextDayOrdinal` | main.py:135 | A day and the next one are one ordinal apart, so `(later - earlier).days` between them is 1. |
| `Dates.NothingBetweenDays` | main.py:135 | No date lies strictly between a day and the next one. |
| `Dates.IsoFormat` | main.py:26 | `str(d)` for a date value in a record is ten characters: digits, with dashes at positions 4 and 7. |
| `Dates.IsoFormatReadsBack` | main.py:26 | The three zero-padded fields of `str(d)` read back as the year, month and day. |
| `Dates.OrdinalOrder` | main.py:134-135 | Date `<` (field by field) holds exactly when the ordinal is smaller. Two dates are equal exactly when their ordinals are. |
| `Text.Split` | main.py:14 | `split` gives one more piece than there are separators, and no piece holds a separator. |
| `Text.Join` | main.py:24 | `sep.join(parts)` starts with the first part, and with the first part followed by `sep` when there are two or more parts. `Text.SplitJoin` is its inverse. |
| `Text.SplitJoin` | main.py:24 | Joining separator-free pieces and splitting again gives back the pieces. |
| `Text.JoinSplit` | main.py:14 | Splitting and then joining with the same separator gives back the text. |
| `Text.ParseInt` | main.py:15 | When `int(text)` succeeds, the stripped text is non-empty, ends in a digit, and holds only digits and underscores after an optional leading sign. A negative result needs a leading `-`. `Text.ParseIntToString` and `Text.ParsePadded` are its round trips. |
| `Text.IntToString` | main.py:26 | `str(n)` starts with `-` exactly when `n` is negative. The digits after any sign denote the magnitude of `n`. `Text.IntToStringCanonical` adds that they have no leading zero. |
| `Text.IntToStringCanonical` | main.py:26 | The digits of `str(n)` after any sign start with `0` only when `n` is zero, and zero is written "0". With `Text.IntToString` this fixes the text: the canonical decimal form. |
| `Text.ParseIntToString` | main.py:15 | `int(str(n)) == n` for every integer, negative ones included. |
| `Text.ParsePadded` | main.py:15 | `int` reads a zero-padded non-negative number as its value; leading zeros do not change it. |
| `Fines.AssessIssue` | main.py:133-135 | The dates are kept. If today's ordinal is past "issued until", the fine is (days past) × 10. Otherwise the issue is returned unchanged. |
| `Fines.IsOverdue` | main.py:134 | `today > issued_until` holds exactly when today's day ordinal is larger, and then the days between them are positive. |
| `Fines.AssessFines` | main.py:131-135 | The loop keeps the book ids in order and each entry's dates. Issues not overdue stay exactly as they were. Each overdue issue gets its days overdue × 10. |
| `Fines.OverdueFine` | main.py:133-135 | An overdue issue's fine is positive and a multiple of `FINE_PER_DAY`. The multiple is the number of days overdue. |
| `Fines.NotOverdueUntouched` | main.py:134-135 | An issue that is not overdue is left as it was, and a fine written earlier is kept. |
| `Fines.FineOnlyWhenOverdue` | main.py:134-135 | An issue changes only if it is overdue, and an overdue issue always ends with a fine. |
| `Fines.DueDateNotOverdue` | main.py:134 | On the "issued until" day itself nothing is charged. |
| `Fines.AssessIssueIdempotent` | main.py:134-135 | Assessing twice on the same day gives the same issue as assessing once. |
| `Fines.FineGrowsDaily` | main.py:135 | From one overdue day to a later one, the fine grows by 10 per day between them. |
| `Fines.AssessFinesValid` | main.py:131-135 | The loop keeps the member's issues a dictionary with distinct keys. |
| `Fines.AssessFinesIdempotent` | main.py:131-135 | Running the fine loop twice on the same day gives the same result as running it once. |
| `Fines.SampleLoanFine` | main.py:64-71 | The sample loan due 1 November 2022 owes 50 on 6 November 2022. |
| `Dicts.Dict.Get` | main.py:111 | `books.get(book_id)` is `None` exactly when the id is not a key. Otherwise it is a value stored with that id, and in a dict with distinct keys it is the value of every entry with that key. |
| `Formatting.FormatDictLines` | main.py:20-29 | Split at newlines, the text is an empty first line, then one line per entry in order (an empty dict leaves one empty line). |
| `Formatting.FormatBooksDictLines` | main.py:32-40 | Split at newlines, the text is an empty first line, then each record's "ID: id" heading followed by the record's own lines, in order. |
| `Formatting.FormatDict` | main.py:20-29 | The text starts with a newline. Its partner `Formatting.FormatDictLines` gives the rest: one line per entry, in order. |
| `Formatting.FormatBooksDict` | main.py:32-40 | The text starts with a newline. Its partner `Formatting.FormatBooksDictLines` gives the rest: each record's "ID: id" line, then the record's own lines. |
| `Formatting.Render` | main.py:26 | A text value is shown through `str.title`. A number's text starts with `-` exactly when it is negative. A date is ten characters. A list is written between brackets. |
| `Formatting.RenderReadsBack` | main.py:26 | A shown number reads back as the number, and a shown date's fields read back as its year, month and day. |
| `Formatting.Line` | main.py:26 | An entry's line starts with the indent, the key through `str.title`, then ": ". It has no newline when the indent, the key and any text value have none. |
| `Formatting.Heading` | main.py:37 | A record's heading starts with the indent then "ID: ". It has no newline when the indent has none. |
| `Formatting.HeadingReadsBack` | main.py:37 | What follows "ID: " in a heading reads back as the record's id. |
| `Library.ViewMember` | main.py:97-107 | The member's issued book ids, in order, are appended to their "issued books" list. Name and start date are kept. Other members, the books and the issues are unchanged. An unknown id changes nothing. |
| `Library.ViewMemberTwice` | main.py:103-105 | Viewing is not idempotent: a second view appends the same ids again. |
| `Library.ViewBook` | main.py:109-116 | Viewing a book changes nothing. It prints the not-found message exactly when the id is not a book's. Otherwise it prints `format_dict` of the book stored under that id. |
| `Library.ViewInventory` | main.py:118-119 | Listing the inventory changes nothing. It prints the heading followed by `format_books_dict` of the books, indented by four spaces. |
| `Library.BookRecords` | main.py:38 | The books are listed with their ids in table order, each with its own name, author and published year. |
| `Library.MemberFields` | main.py:51 | A member dict has distinct keys "name", "member since" and "issued books", in that order. Each key holds the member's own name, start date and issued-book ids. |
| `Library.BookFields` | main.py:54-58 | A book dict has distinct keys "name", "author" and "published year", in that order. Each key holds the book's own value. |
| `Library.IssueFields` | main.py:66-69 | An issue dict has distinct keys and starts with "issued date" and "issued until", holding the two dates. The "fine amount" key (written at main.py:135) is present exactly when a fine has been written, and then holds it. |
| `Library.InventoryLines` | main.py:118-119 | Split at newlines, the inventory is its heading line, then each book's "ID: id" line and its field lines, in table order. |
| `Library.ViewIssued` | main.py:121-141 | Only the chosen member's issues are assessed. An unknown member, or one with no issues, changes nothing. Every other member's issues, the members and the books are unchanged. |
| `Library.Step` | main.py:93-144 | An option outside 1..8 prints the range message and changes nothing. Only options 1 and 4 can change the library. Only option 8 leaves the loop. |
| `Library.UnhandledOptions` | main.py:93-97 | Options 5, 6 and 7 pass the range check, reach no branch, print nothing and change nothing. |
| `Library.StepKeepsValid` | main.py:97-144 | Every pass of the loop keeps every dictionary free of duplicate keys. |
| `Library.Initial` | main.py:49-71 | At start-up there is one member (id 1), one book (id 1) and one issue table (member 1), all well formed. The member joined on the start-up date and has no issued books listed. The sample issue (book 1) carries no fine. |
| `Library.InitialFacts` | main.py:49-71 | The start-up data is well formed, and its sample loan runs 31 days. |

## Left out

- Console I/O: the `input()` prompts and `print` calls. The option and the ids are arguments, already read as integers. A reply that is not an integer makes `int(...)` raise and ends the program; that path is not modelled.
- The clock: `str_to_date()` with no argument reads today's date. It is a parameter here. The loop reads the clock once per issue, so two readings could differ across midnight; the model uses one date per pass.
- `str.title`: its Unicode and word-boundary rules are not modelled. It is a function parameter.
- Formatting.FormatDictLines: holds only when the indent has no newline and `title` leaves no newline in any key or text value. Python needs the same: `str.title` keeps a newline already in a key or value, and such a newline splits the line.
- Formatting.FormatBooksDictLines: same `title` limit as above. It is also stated only for a non-empty dict, because every call in `main.py` passes one: this revision never removes a book, and main.py:128 returns early on an empty issue table.
- Library.InventoryLines: holds only for a non-empty books table, because this revision never removes a book. It also holds only for a `title` that puts no newline into book keys or text values.
- `int(text)`: Unicode digits and Unicode whitespace are not modelled; only ASCII whitespace and digits are.
- `datetime.date`: the `OverflowError` message does not say which field overflowed, so the model's `IntOverflow` does not either.
- Text.ParseIntToString: does not model the 4300-digit limit of Python 3.11 and later (also in 3.10.7 and later 3.10 releases). There, `str(n)` raises `ValueError` once `n` has more than 4300 digits, and `int(text)` raises for more than 4300 digits. The model has no limit.
- Text.ParsePadded: the same 4300-digit limit on `int(text)` is not modelled.
- Text.ParseInt: has no 4300-digit limit either; it reads digit parts of any length.
- DateParsing.ParseDate: inherits the missing 4300-digit limit. A field of more than 4300 digits, such as 4300 zeros then "1", raises `ValueError` in Python 3.11 and later, but the model reads it.
- DateParsing.ParseDateSucceeds: inherits the same missing limit, so it counts such a field as an integer.
- DateParsing.ParseWrittenFields: inherits the same missing limit for numbers of more than 4300 digits.
- `DATETIME_FORMAT`: it is declared but never used.
- Options 5, 6 and 7 (add member, add book, issue a book): no code handles them in this revision.
- The issue, renew and extend rules and the 28-day loan period of later revisions: not in this file.
- The trailing newline `print` adds to each output is not part of the modelled text.

=== FILE: date_parsing.dfy ===
/**
 * The parsing branch of `str_to_date`: the text is split at "/" into day,
 * month and year, each field is read with `int`, and the triple is handed to
 * the `datetime.date` constructor. Every way this can raise is an error value.
 */
module DateParsing {
  import opened Wrappers
  import Text
  import opened Dates

  datatype ParseError =
    | FieldCount(found: nat)        // unpacking the split into day, month, year failed
    | NotAnInteger(field: string)   // `int(field)` raised
    | BadDate(reason: DateError)    // `datetime.date(year, month, day)` raised

  /** `str_to_date(text)`. The fields are read in the constructor's argument order: year, month, day. */
  function ParseDate(text: string): (r: Result<Date, ParseError>)
    ensures r.Success? ==> Text.Occurrences(text, '/') == 2
    ensures Text.Occurrences(text, '/') != 2 ==> r == Failure(FieldCount(Text.Occurrences(text, '/') + 1))
    ensures r.Success? ==>
              var fields := Text.Split(text, '/');
              && Text.ParseInt(fields[0]) == Some(r.value.day)
              && Text.ParseInt(fields[1]) == Some(r.value.month)
              && Text.ParseInt(fields[2]) == Some(r.value.year)
  {
    var fields := Text.Split(text, '/');
    if |fields| != 3 then Failure(FieldCount(|fields|))
    else
      var dayText, monthText, yearText := fields[0], fields[1], fields[2];
      match Text.ParseInt(yearText)
      case None => Failure(NotAnInteger(yearText))
      case Some(year) =>
        match Text.ParseInt(monthText)
        case None => Failure(NotAnInteger(monthText))
        case Some(month) =>
          match Text.ParseInt(dayText)
          case None => Failure(NotAnInteger(dayText))
          case Some(day) =>
            match MakeDate(year, month, day)
            case Failure(e) => Failure(BadDate(e))
            case Success(d) => Success(d)
  }

  /** Three numbers written day/month/year, zero-padded like the sample dates "01/10/2022". */
  function WriteFields(day: nat, month: nat, year: nat): string
  {
    Text.NatToPadded(day, 2) + "/" + Text.NatToPadded(month, 2) + "/" + Text.NatToPadded(year, 4)
  }

  /** A date written day/month/year. */
  function DateToText(d: Date): string
  {
    WriteFields(d.day, d.month, d.year)
  }

  lemma NoSlashInDigits(s: string)
    requires Text.AllDigits(s)
    ensures '/' !in s
  {
  }

  /**
   * Parsing fails exactly when the text does not have three "/"-separated
   * fields, when a field is not an integer, or when the integers do not form
   * a calendar date.
   */
  lemma ParseDateSucceeds(text: string)
    ensures ParseDate(text).Success? <==>
              var fields := Text.Split(text, '/');
              && |fields| == 3
              && Text.ParseInt(fields[0]).Some?
              && Text.ParseInt(fields[1]).Some?
              && Text.ParseInt(fields[2]).Some?
              && IsValid(CalendarDate(Text.ParseInt(fields[2]).value,
                                      Text.ParseInt(fields[1]).value,
                                      Text.ParseInt(fields[0]).value))
  {
  }

  /** Three written numbers parse to exactly what the date constructor makes of them. */
  lemma ParseWrittenFields(day: nat, month: nat, year: nat)
    ensures ParseDate(WriteFields(day, month, year))
            == match MakeDate(year, month, day)
               case Success(d) => Success(d)
               case Failure(e) => Failure(BadDate(e))
  {
    var parts := [Text.NatToPadded(day, 2), Text.NatToPadded(month, 2), Text.NatToPadded(year, 4)];
    NoSlashInDigits(parts[0]);
    NoSlashInDigits(parts[1]);
    NoSlashInDigits(parts[2]);
    Text.SplitJoin(parts, '/');
    Text.JoinThree(parts[0], parts[1], parts[2], "/");
    assert Text.Join(parts, "/") == WriteFields(day, month, year);
    Text.ParsePadded(day, 2);
    Text.ParsePadded(month, 2);
    Text.ParsePadded(year, 4);
  }

  /** Reading back a written date gives the same date. */
  lemma ParseDateToText(d: Date)
    ensures ParseDate(DateToText(d)) == Success(d)
  {
    ParseWrittenFields(d.day, d.month, d.year);
  }

  /** The start-up data's "issued date" text is the written form of 1 October 2022. */
  lemma IssuedDateSpelling()
    ensures WriteFields(1, 10, 2022) == "01/10/2022"
  {
    assert Text.NatToDigits(1) == "1";
    assert Text.NatToPadded(1, 2) == "01";
    assert Text.NatToDigits(10) == "10";
    assert Text.NatToDigits(2022) == "2022";
  }

  /** The start-up data's "issued until" text is the written form of 1 November 2022. */
  lemma IssuedUntilSpelling()
    ensures WriteFields(1, 11, 2022) == "01/11/2022"
  {
    assert Text.NatToDigits(1) == "1";
    assert Text.NatToPadded(1, 2) == "01";
    assert Text.NatToDigits(11) == "11";
    assert Text.NatToDigits(2022) == "2022";
  }

  /** "31/02/2022" is the written form of the triple (31, 2, 2022). */
  lemma FebruarySpelling()
    ensures WriteFields(31, 2, 2022) == "31/02/2022"
  {
    assert Text.NatToDigits(31) == "31";
    assert Text.NatToDigits(2) == "2";
    assert Text.NatToPadded(2, 2) == "02";
    assert Text.NatToDigits(2022) == "2022";
  }

  /** The triple (1, 10, 2022), written day/month/year, reads as 1 October 2022. */
  lemma WrittenIssuedDate()
    ensures ParseDate(WriteFields(1, 10, 2022)) == Success(CalendarDate(2022, 10, 1))
  {
    ParseWrittenFields(1, 10, 2022);
  }

  /** The start-up data's "issued date" 01/10/2022 reads as 1 October 2022. */
  lemma SampleIssuedDate()
    ensures ParseDate("01/10/2022") == Success(CalendarDate(2022, 10, 1))
  {
    IssuedDateSpelling();
    WrittenIssuedDate();
  }

  /** The triple (1, 11, 2022), written day/month/year, reads as 1 November 2022. */
  lemma WrittenIssuedUntil()
    ensures ParseDate(WriteFields(1, 11, 2022)) == Success(CalendarDate(2022, 11, 1))
  {
    ParseWrittenFields(1, 11, 2022);
  }

  /** The start-up data's "issued until" 01/11/2022 reads as 1 November 2022. */
  lemma SampleIssuedUntil()
    ensures ParseDate("01/11/2022") == Success(CalendarDate(2022, 11, 1))
  {
    IssuedUntilSpelling();
    WrittenIssuedUntil();
  }

  /** The triple (31, 2, 2022), written day/month/year, is refused by the day check. */
  lemma WrittenThirtyFirstOfFebruary()
    ensures ParseDate(WriteFields(31, 2, 2022)) == Failure(BadDate(DayOutOfRange))
  {
    ParseWrittenFields(31, 2, 2022);
  }

  /** 31/02/2022 is refused by the date constructor's day check. */
  lemma NoThirtyFirstOfFebruary()
    ensures ParseDate("31/02/2022") == Failure(BadDate(DayOutOfRange))
  {
    FebruarySpelling();
    WrittenThirtyFirstOfFebruary();
  }

  /** A day field of 10^20 overflows the C `int` before the month 13 is looked at. */
  lemma HugeDayOverflows()
    ensures ParseDate(WriteFields(100_000_000_000_000_000_000, 13, 2022)) == Failure(BadDate(IntOverflow))
  {
    ParseWrittenFields(100_000_000_000_000_000_000, 13, 2022);
  }
}

=== FILE: dates.dfy ===
/**
 * Calendar dates as Python's `datetime.date` represents them: a proleptic
 * Gregorian (year, month, day) triple with 1 <= year <= 9999, compared
 * field by field, and subtracted through the day ordinal `toordinal()`
 * (0001-01-01 is day 1).
 */
module Dates {
  import opened Wrappers
  import Text

  const MIN_YEAR: int := 1
  const MAX_YEAR: int := 9999

  datatype CalendarDate = CalendarDate(year: int, month: int, day: int)

  /** Gregorian leap years: divisible by 4, except centuries not divisible by 400. */
  predicate IsLeap(year: int)
  {
    year % 4 == 0 && (year % 100 != 0 || year % 400 == 0)
  }

  function DaysInMonth(year: int, month: int): (n: int)
    requires 1 <= month <= 12
    ensures 28 <= n <= 31
    ensures n == 29 <==> month == 2 && IsLeap(year)
  {
    if month == 2 then (if IsLeap(year) then 29 else 28)
    else if month == 4 || month == 6 || month == 9 || month == 11 then 30
    else 31
  }

  function DaysInYear(year: int): int
  {
    if IsLeap(year) then 366 else 365
  }

  /** The triples `datetime.date(year, month, day)` accepts. */
  predicate IsValid(d: CalendarDate)
  {
    && MIN_YEAR <= d.year <= MAX_YEAR
    && 1 <= d.month <= 12
    && 1 <= d.day <= DaysInMonth(d.year, d.month)
  }

  type Date = d: CalendarDate | IsValid(d) witness CalendarDate(1, 1, 1)

  /** The range of the C `int` the constructor first converts each argument to. */
  const INT_MIN: int := -0x8000_0000
  const INT_MAX: int := 0x7FFF_FFFF

  predicate FitsCInt(n: int)
  {
    INT_MIN <= n <= INT_MAX
  }

  /**
   * What the `datetime.date` constructor raises: `OverflowError` when an
   * argument does not fit a C `int`, else one of its three `ValueError`s.
   */
  datatype DateError = IntOverflow | YearOutOfRange | MonthOutOfRange | DayOutOfRange

  /**
   * Python's `datetime.date(year, month, day)`. All three arguments are
   * converted to C `int`s before any range is checked; the ranges are then
   * checked year first, month next, day last.
   */
  function MakeDate(year: int, month: int, day: int): (r: Result<Date, DateError>)
    ensures r.Success? <==> IsValid(CalendarDate(year, month, day))
    ensures r.Success? ==> r.value == CalendarDate(year, month, day)
    ensures r == Failure(IntOverflow) <==> !(FitsCInt(year) && FitsCInt(month) && FitsCInt(day))
    ensures r == Failure(YearOutOfRange) <==>
              FitsCInt(year) && FitsCInt(month) && FitsCInt(day) && !(MIN_YEAR <= year <= MAX_YEAR)
    ensures r == Failure(MonthOutOfRange) <==>
              FitsCInt(month) && FitsCInt(day) && MIN_YEAR <= year <= MAX_YEAR && !(1 <= month <= 12)
    ensures r == Failure(DayOutOfRange) <==>
              FitsCInt(day) && MIN_YEAR <= year <= MAX_YEAR && 1 <= month <= 12
              && !(1 <= day <= DaysInMonth(year, month))
  {
    if !(FitsCInt(year) && FitsCInt(month) && FitsCInt(day)) then Failure(IntOverflow)
    else if !(MIN_YEAR <= year <= MAX_YEAR) then Failure(YearOutOfRange)
    else if !(1 <= month <= 12) then Failure(MonthOutOfRange)
    else if !(1 <= day <= DaysInMonth(year, month)) then Failure(DayOutOfRange)
    else Success(CalendarDate(year, month, day))
  }

  /** A day too large for a C `int` raises `OverflowError` even when the year is out of range. */
  lemma OverflowBeforeRange()
    ensures MakeDate(0, 1, 0x100_0000_0000) == Failure(IntOverflow)
    ensures MakeDate(2022, 13, 100_000_000_000_000_000_000) == Failure(IntOverflow)
    ensures MakeDate(0, 1, 1) == Failure(YearOutOfRange)
  {
  }

  /** Python's `a < b` on dates: lexicographic on (year, month, day). */
  predicate Before(a: Date, b: Date)
  {
    || a.year < b.year
    || (a.year == b.year && a.month < b.month)
    || (a.year == b.year && a.month == b.month && a.day < b.day)
  }

  /** Days in the years before `year`. */
  function DaysBeforeYear(year: int): int
    requires year >= 1
  {
    var y := year - 1;
    y * 365 + y / 4 - y / 100 + y / 400
  }

  /** Days in the months of `year` before `month`. */
  function DaysBeforeMonth(year: int, month: int): int
    requires 1 <= month <= 12
  {
    [0, 31, 59, 90, 120, 151, 181, 212, 243, 273, 304, 334][month - 1]
      + (if month > 2 && IsLeap(year) then 1 else 0)
  }

  /** Python's `d.toordinal()`. */
  function Ordinal(d: Date): int
  {
    DaysBeforeYear(d.year) + DaysBeforeMonth(d.year, d.month) + d.day
  }

  /** Python's `(later - earlier).days`: positive exactly when `earlier` comes first. */
  function DaysBetween(earlier: Date, later: Date): (days: int)
    ensures days > 0 <==> Before(earlier, later)
    ensures days == 0 <==> earlier == later
    ensures days < 0 <==> Before(later, earlier)
  {
    OrdinalOrder(earlier, later);
    OrdinalOrder(later, earlier);
    Ordinal(later) - Ordinal(earlier)
  }

  /** Python's `str(d)`, i.e. `d.isoformat()`: YYYY-MM-DD, digits and two dashes. */
  function IsoFormat(d: Date): (r: string)
    ensures |r| == 10 && r[4] == '-' && r[7] == '-'
    ensures forall i :: 0 <= i < |r| ==> r[i] == '-' || Text.IsDigit(r[i])
  {
    var year, month, day := Text.NatToPadded(d.year, 4), Text.NatToPadded(d.month, 2), Text.NatToPadded(d.day, 2);
    Text.ShortDigits(d.year);
    Text.ShortDigits(d.month);
    Text.ShortDigits(d.day);
    IsoSlices(year, month, day);
    year + "-" + month + "-" + day
  }

  /** The three zero-padded fields of `str(d)` read back as the year, month and day. */
  lemma IsoFormatReadsBack(d: Date)
    ensures var r := IsoFormat(d);
            && Text.ParseInt(r[..4]) == Some(d.year)
            && Text.ParseInt(r[5..7]) == Some(d.month)
            && Text.ParseInt(r[8..]) == Some(d.day)
  {
    var year, month, day := Text.NatToPadded(d.year, 4), Text.NatToPadded(d.month, 2), Text.NatToPadded(d.day, 2);
    Text.ShortDigits(d.year);
    Text.ShortDigits(d.month);
    Text.ShortDigits(d.day);
    Text.ParsePadded(d.year, 4);
    Text.ParsePadded(d.month, 2);
    Text.ParsePadded(d.day, 2);
    IsoSlices(year, month, day);
  }

  /** Where the three fields of a YYYY-MM-DD text sit. */
  lemma IsoSlices(year: string, month: string, day: string)
    requires |year| == 4 && |month| == 2 && |day| == 2
    requires Text.AllDigits(year) && Text.AllDigits(month) && Text.AllDigits(day)
    ensures var r := year + "-" + month + "-" + day;
            && |r| == 10 && r[4] == '-' && r[7] == '-'
            && r[..4] == year && r[5..7] == month && r[8..] == day
            && forall i :: 0 <= i < |r| ==> r[i] == '-' || Text.IsDigit(r[i])
  {
    var r := year + "-" + month + "-" + day;
    forall i | 0 <= i < |r| ensures r[i] == '-' || Text.IsDigit(r[i]) {
      if i < 4 {
        assert r[i] == year[i];
      } else if 5 <= i < 7 {
        assert r[i] == month[i - 5];
      } else if 8 <= i {
        assert r[i] == day[i - 8];
      }
    }
  }

  /**
   * Python's `d + timedelta(days=1)`: the next calendar day, or `None` after
   * 31 December 9999, where Python raises `OverflowError`.
   */
  function NextDay(d: Date): (r: Option<Date>)
    ensures r.None? <==> d == CalendarDate(MAX_YEAR, 12, 31)
    ensures r.Some? ==> Before(d, r.value)
  {
    if d.day < DaysInMonth(d.year, d.month) then Some(CalendarDate(d.year, d.month, d.day + 1))
    else if d.month < 12 then Some(CalendarDate(d.year, d.month + 1, 1))
    else if d.year < MAX_YEAR then Some(CalendarDate(d.year + 1, 1, 1))
    else None
  }

  // ---------------------------------------------------------------------------
  // the ordinal agrees with the calendar order
  // ---------------------------------------------------------------------------

  /** Stepping from `year - 1` to `year` adds one to `year / k` exactly when `k` divides `year`. */
  lemma StepFour(year: int)
    ensures year / 4 == (year - 1) / 4 + (if year % 4 == 0 then 1 else 0)
  {
  }

  lemma StepHundred(year: int)
    ensures year / 100 == (year - 1) / 100 + (if year % 100 == 0 then 1 else 0)
  {
  }

  lemma StepFourHundred(year: int)
    ensures year / 400 == (year - 1) / 400 + (if year % 400 == 0 then 1 else 0)
  {
  }

  /** Every fourth century year is a century year, and every century year is a fourth year. */
  lemma CenturyDivisors(year: int)
    ensures year % 400 == 0 ==> year % 100 == 0
    ensures year % 100 == 0 ==> year % 4 == 0
  {
  }

  /** Consecutive calendar days have consecutive ordinals, so `DaysBetween` counts calendar days. */
  lemma NextDayOrdinal(d: Date)
    ensures NextDay(d).Some? ==>
              Ordinal(NextDay(d).value) == Ordinal(d) + 1 && DaysBetween(d, NextDay(d).value) == 1
  {
    EndOfMonth(d.year, d.month);
    if d.day == DaysInMonth(d.year, d.month) && d.month == 12 && d.year < MAX_YEAR {
      NextYear(d.year);
    }
  }

  /** No date lies strictly between a day and the next one. */
  lemma NothingBetweenDays(d: Date, e: Date)
    requires NextDay(d).Some?
    ensures !(Before(d, e) && Before(e, NextDay(d).value))
  {
    NextDayOrdinal(d);
    OrdinalOrder(d, e);
    OrdinalOrder(e, NextDay(d).value);
  }

  lemma NextYear(year: int)
    requires year >= 1
    ensures DaysBeforeYear(year + 1) == DaysBeforeYear(year) + DaysInYear(year)
  {
    StepFour(year);
    StepHundred(year);
    StepFourHundred(year);
    CenturyDivisors(year);
  }

  lemma {:induction false} LaterYear(a: int, b: int)
    requires 1 <= a < b
    ensures DaysBeforeYear(a) + DaysInYear(a) <= DaysBeforeYear(b)
    decreases b - a
  {
    NextYear(a);
    if a + 1 < b {
      LaterYear(a + 1, b);
    }
  }

  lemma EndOfMonth(year: int, month: int)
    requires 1 <= month <= 12
    ensures DaysBeforeMonth(year, month) + DaysInMonth(year, month)
            == if month == 12 then DaysInYear(year) else DaysBeforeMonth(year, month + 1)
  {
  }

  lemma LaterMonth(year: int, a: int, b: int)
    requires 1 <= a < b <= 12
    ensures DaysBeforeMonth(year, a) + DaysInMonth(year, a) <= DaysBeforeMonth(year, b)
  {
  }

  lemma WithinYear(d: Date)
    ensures DaysBeforeMonth(d.year, d.month) + d.day <= DaysInYear(d.year)
  {
    EndOfMonth(d.year, d.month);
    if d.month < 12 {
      LaterMonth(d.year, d.month, 12);
      EndOfMonth(d.year, 12);
    }
  }

  /** The ordinal is strictly increasing in the calendar order, and only in it. */
  lemma OrdinalOrder(a: Date, b: Date)
    ensures Before(a, b) <==> Ordinal(a) < Ordinal(b)
    ensures a == b <==> Ordinal(a) == Ordinal(b)
  {
    if Before(a, b) {
      OrdinalIncreasing(a, b);
    } else if Before(b, a) {
      OrdinalIncreasing(b, a);
    }
  }

  lemma OrdinalIncreasing(a: Date, b: Date)
    requires Before(a, b)
    ensures Ordinal(a) < Ordinal(b)
  {
    if a.year < b.year {
      WithinYear(a);
      LaterYear(a.year, b.year);
    } else if a.month < b.month {
      LaterMonth(a.year, a.month, b.month);
    }
  }
}

=== FILE: dicts.dfy ===
/**
 * Python dictionaries whose iteration order shows in the program's output:
 * the entries in insertion order, with distinct keys.
 */
module Dicts {
  import opened Wrappers

  datatype Dict<K(==), V> = Dict(items: seq<(K, V)>) {

    /** Python's `d.keys()`, in iteration order. */
    function Keys(): (ks: seq<K>)
      ensures |ks| == |items|
      ensures forall i :: 0 <= i < |items| ==> ks[i] == items[i].0
    {
      seq(|items|, i requires 0 <= i < |items| => items[i].0)
    }

    /** A real dictionary never holds a key twice. */
    predicate Valid()
    {
      forall i, j :: 0 <= i < j < |items| ==> items[i].0 != items[j].0
    }

    /** Python's `d.get(k)`. */
    function Get(k: K): (r: Option<V>)
      ensures r.None? <==> k !in Keys()
      ensures r.Some? ==> exists i :: 0 <= i < |items| && items[i] == (k, r.value)
      ensures Valid() ==> forall i :: 0 <= i < |items| && items[i].0 == k ==> r == Some(items[i].1)
      decreases |items|
    {
      if |items| == 0 then None
      else if items[0].0 == k then Some(items[0].1)
      else
        var rest := Dict(items[1..]);
        assert rest.Keys() == Keys()[1..];
        assert Valid() ==> rest.Valid();
        rest.Get(k)
    }
  }
}

=== FILE: fines.dfy ===
/**
 * Overdue fines (action 4 of the menu): for every issue of a member, when
 * today is strictly after the "issued until" date, the issue's fine amount is
 * set to the number of days overdue times the daily rate.
 */
module Fines {
  import opened Wrappers
  import opened Dates
  import opened Dicts

  /** Fine charged per day overdue. */
  const FINE_PER_DAY: int := 10

  /** One issued book: the "issued date", "issued until" and optional "fine amount" keys of an issue dict. */
  datatype Issue = Issue(issuedDate: Date, issuedUntil: Date, fine: Option<int>)

  /** A member's issues: book id to issue, in insertion order. */
  type Issues = Dict<int, Issue>

  /** Python's `today > issue["issued until"]`: today's day ordinal is past the due date's. */
  predicate IsOverdue(issue: Issue, today: Date): (overdue: bool)
    ensures overdue <==> Ordinal(issue.issuedUntil) < Ordinal(today)
    ensures overdue ==> DaysBetween(issue.issuedUntil, today) > 0
  {
    OrdinalOrder(issue.issuedUntil, today);
    Before(issue.issuedUntil, today)
  }

  /** One pass of the fine loop body for a single issue. */
  function AssessIssue(issue: Issue, today: Date): (r: Issue)
    ensures r.issuedDate == issue.issuedDate && r.issuedUntil == issue.issuedUntil
    ensures Ordinal(today) > Ordinal(issue.issuedUntil) ==>
              r.fine == Some((Ordinal(today) - Ordinal(issue.issuedUntil)) * FINE_PER_DAY)
    ensures Ordinal(today) <= Ordinal(issue.issuedUntil) ==> r == issue
  {
    OrdinalOrder(issue.issuedUntil, today);
    if IsOverdue(issue, today) then
      issue.(fine := Some(DaysBetween(issue.issuedUntil, today) * FINE_PER_DAY))
    else
      issue
  }

  /** The fine loop over all of a member's issues, in iteration order. */
  function AssessFines(issues: Issues, today: Date): (r: Issues)
    ensures r.Keys() == issues.Keys()
    ensures forall i :: 0 <= i < |issues.items| ==>
              && r.items[i].1.issuedDate == issues.items[i].1.issuedDate
              && r.items[i].1.issuedUntil == issues.items[i].1.issuedUntil
    ensures forall i :: 0 <= i < |issues.items| && !IsOverdue(issues.items[i].1, today) ==>
              r.items[i] == issues.items[i]
    ensures forall i :: 0 <= i < |issues.items| && IsOverdue(issues.items[i].1, today) ==>
              r.items[i].1.fine == Some(DaysBetween(issues.items[i].1.issuedUntil, today) * FINE_PER_DAY)
    decreases |issues.items|
  {
    if |issues.items| == 0 then issues
    else
      var (bookId, issue) := issues.items[0];
      var rest := AssessFines(Dict(issues.items[1..]), today);
      OrdinalOrder(issue.issuedUntil, today);
      Dict([(bookId, AssessIssue(issue, today))] + rest.items)
  }

  // ---------------------------------------------------------------------------
  // properties of a single assessment
  // ---------------------------------------------------------------------------

  /** An overdue issue gets a fine that is a positive multiple of the rate: the rate times the days overdue. */
  lemma OverdueFine(issue: Issue, today: Date)
    requires IsOverdue(issue, today)
    ensures AssessIssue(issue, today).fine.Some?
    ensures AssessIssue(issue, today).fine.value > 0
    ensures AssessIssue(issue, today).fine.value % FINE_PER_DAY == 0
    ensures AssessIssue(issue, today).fine.value / FINE_PER_DAY == DaysBetween(issue.issuedUntil, today)
  {
    OrdinalOrder(issue.issuedUntil, today);
    var days := DaysBetween(issue.issuedUntil, today);
    assert days > 0;
    assert AssessIssue(issue, today).fine.value == days * 10;
    assert (days * 10) % 10 == 0 && (days * 10) / 10 == days;
  }

  /** An issue that is not overdue is left exactly as it was, an earlier fine included. */
  lemma NotOverdueUntouched(issue: Issue, today: Date)
    requires !IsOverdue(issue, today)
    ensures AssessIssue(issue, today) == issue
  {
    OrdinalOrder(issue.issuedUntil, today);
  }

  /** A fine is recorded only for an overdue issue. */
  lemma FineOnlyWhenOverdue(issue: Issue, today: Date)
    ensures AssessIssue(issue, today) != issue ==> IsOverdue(issue, today)
    ensures AssessIssue(issue, today).fine.None? ==> !IsOverdue(issue, today)
  {
    OrdinalOrder(issue.issuedUntil, today);
  }

  /** On the due date itself nothing is charged. */
  lemma DueDateNotOverdue(issue: Issue)
    ensures !IsOverdue(issue, issue.issuedUntil)
    ensures AssessIssue(issue, issue.issuedUntil) == issue
  {
  }

  /** Assessing twice on the same day is the same as assessing once. */
  lemma AssessIssueIdempotent(issue: Issue, today: Date)
    ensures AssessIssue(AssessIssue(issue, today), today) == AssessIssue(issue, today)
  {
  }

  /** Every further day overdue adds the daily rate to the fine. */
  lemma FineGrowsDaily(issue: Issue, earlier: Date, later: Date)
    requires IsOverdue(issue, earlier)
    requires Before(earlier, later)
    ensures IsOverdue(issue, later)
    ensures AssessIssue(issue, later).fine.value - AssessIssue(issue, earlier).fine.value
            == DaysBetween(earlier, later) * FINE_PER_DAY
  {
    OrdinalOrder(issue.issuedUntil, earlier);
    OrdinalOrder(earlier, later);
    OrdinalOrder(issue.issuedUntil, later);
  }

  // ---------------------------------------------------------------------------
  // properties of the whole loop
  // ---------------------------------------------------------------------------

  /** The loop keeps the issues a well-formed dictionary. */
  lemma AssessFinesValid(issues: Issues, today: Date)
    requires issues.Valid()
    ensures AssessFines(issues, today).Valid()
  {
    var r := AssessFines(issues, today);
    forall i, j | 0 <= i < j < |r.items| ensures r.items[i].0 != r.items[j].0 {
      assert r.items[i].0 == r.Keys()[i] == issues.Keys()[i];
      assert r.items[j].0 == r.Keys()[j] == issues.Keys()[j];
    }
  }

  /** Running the loop again on the same day changes nothing further. */
  lemma AssessFinesIdempotent(issues: Issues, today: Date)
    ensures AssessFines(AssessFines(issues, today), today) == AssessFines(issues, today)
  {
    var once := AssessFines(issues, today);
    var twice := AssessFines(once, today);
    assert |twice.items| == |once.items| by {
      assert |twice.Keys()| == |once.Keys()|;
    }
    forall i | 0 <= i < |once.items| ensures twice.items[i] == once.items[i] {
      assert twice.Keys()[i] == once.Keys()[i];
      var issue := issues.items[i].1;
      if IsOverdue(issue, today) {
        assert IsOverdue(once.items[i].1, today);
      } else {
        assert once.items[i] == issues.items[i];
      }
    }
  }

  /** The sample loan of the initial data, 1 October to 1 November 2022, owes 50 on 6 November 2022. */
  lemma SampleLoanFine()
    ensures AssessIssue(Issue(CalendarDate(2022, 10, 1), CalendarDate(2022, 11, 1), None),
                        CalendarDate(2022, 11, 6)).fine == Some(50)
  {
  }
}

=== FILE: formatting.dfy ===
/**
 * `format_dict` and `format_books_dict`. `format_dict` writes a leading
 * newline, then one line per dictionary entry. `format_books_dict` writes a
 * leading newline, then for each entry an "ID: id" line followed by that
 * record's own `format_dict` lines. Python's `str.title` is a parameter
 * `title` of every formatter; its exact word rules are not modelled.
 */
module Formatting {
  import opened Wrappers
  import Text
  import Dates

  /** A value stored in one of the record dicts, with the way an f-string shows it. */
  datatype Value =
    | Str(s: string)          // shown through `title`
    | Int(n: int)             // `str(n)`
    | Day(d: Dates.Date)      // `str(d)`: YYYY-MM-DD
    | IntList(ns: seq<int>)   // `str(list)`: [1, 2]

  /** A record dict's items, in iteration order; every key is a string. */
  type Fields = seq<(string, Value)>

  /**
   * How the f-string shows a value: text through `title`, a number or a date
   * as text that reads back as it, a list between brackets.
   */
  function Render(v: Value, title: string -> string): (r: string)
    ensures v.Str? ==> r == title(v.s)
    ensures v.Int? ==> |r| > 0 && (r[0] == '-' <==> v.n < 0)
    ensures v.Day? ==> |r| == 10
    ensures v.IntList? ==> |r| >= 2 && r[0] == '[' && r[|r| - 1] == ']'
  {
    match v
    case Str(s) => title(s)
    case Int(n) => Text.IntToString(n)
    case Day(d) => Dates.IsoFormat(d)
    case IntList(ns) => "[" + Text.Join(seq(|ns|, i requires 0 <= i < |ns| => Text.IntToString(ns[i])), ", ") + "]"
  }

  /**
   * The line `format_dict` writes for one entry: the indent, the key through
   * `title`, ": ", then the value. It is a single line when neither the
   * indent nor `title` brings in a newline.
   */
  function Line(entry: (string, Value), indent: string, title: string -> string): (r: string)
    ensures indent + title(entry.0) + ": " <= r
    ensures '\n' !in indent && '\n' !in title(entry.0) && (entry.1.Str? ==> '\n' !in title(entry.1.s)) ==>
              '\n' !in r
  {
    var r := indent + title(entry.0) + ": " + Render(entry.1, title);
    if entry.1.Str? ==> '\n' !in title(entry.1.s) then
      NoNewlineInValue(entry.1, title);
      r
    else
      r
  }

  function Lines(fields: Fields, indent: string, title: string -> string): (lines: seq<string>)
    ensures |lines| == |fields|
  {
    seq(|fields|, i requires 0 <= i < |fields| => Line(fields[i], indent, title))
  }

  /** `format_dict(dictionary, indent=indent)`. */
  function FormatDict(fields: Fields, indent: string, title: string -> string): (r: string)
    ensures |r| > 0 && r[0] == '\n'
  {
    "\n" + Text.Join(Lines(fields, indent, title), "\n")
  }

  /**
   * The heading line `format_books_dict` writes before each record's own
   * lines: the indent, "ID: ", then the id as text that reads back as it.
   */
  function Heading(id: int, indent: string): (r: string)
    ensures indent + "ID: " <= r
    ensures '\n' !in indent ==> '\n' !in r
  {
    NoNewlineInNumber(id);
    indent + "ID: " + Text.IntToString(id)
  }

  /** What follows "ID: " in a heading reads back as the id. */
  lemma HeadingReadsBack(id: int, indent: string)
    ensures Text.ParseInt(Heading(id, indent)[|indent| + 4..]) == Some(id)
  {
    Text.ParseIntToString(id);
    assert Heading(id, indent)[|indent| + 4..] == Text.IntToString(id);
  }

  /** `format_books_dict(book_dict, indent=indent)`, for a dict of id to record. */
  function FormatBooksDict(records: seq<(int, Fields)>, indent: string, title: string -> string): (r: string)
    ensures |r| > 0 && r[0] == '\n'
  {
    "\n" + Text.Join(Sections(records, indent, title), "\n")
  }

  function Sections(records: seq<(int, Fields)>, indent: string, title: string -> string): (parts: seq<string>)
    ensures |parts| == |records|
  {
    seq(|records|, i requires 0 <= i < |records| =>
      Heading(records[i].0, indent) + FormatDict(records[i].1, indent, title))
  }

  // ---------------------------------------------------------------------------
  // line structure
  // ---------------------------------------------------------------------------

  /** No entry's key or text value is given a newline by `title`, and the indent has none. */
  predicate SingleLine(fields: Fields, indent: string, title: string -> string)
  {
    && '\n' !in indent
    && forall i :: 0 <= i < |fields| ==>
         '\n' !in title(fields[i].0) && (fields[i].1.Str? ==> '\n' !in title(fields[i].1.s))
  }

  /** The lines that follow the leading newline: one per entry (an empty dict still ends in one empty line). */
  function BodyLines(fields: Fields, indent: string, title: string -> string): seq<string>
  {
    if |fields| == 0 then [""] else Lines(fields, indent, title)
  }

  /** The lines of a books listing after its leading newline: each record's heading, then its own lines. */
  function SectionLines(records: seq<(int, Fields)>, indent: string, title: string -> string): seq<string>
    decreases |records|
  {
    if |records| == 0 then []
    else [Heading(records[0].0, indent)] + BodyLines(records[0].1, indent, title)
         + SectionLines(records[1..], indent, title)
  }

  lemma NoNewlineInNumber(n: int)
    ensures '\n' !in Text.IntToString(n)
  {
    var s := Text.IntToString(n);
    if n < 0 {
      assert s == "-" + Text.NatToDigits(-n);
      assert forall i :: 1 <= i < |s| ==> s[i] == Text.NatToDigits(-n)[i - 1];
    }
  }

  lemma NoNewlineInJoin(parts: seq<string>, sep: string)
    requires '\n' !in sep
    requires forall i :: 0 <= i < |parts| ==> '\n' !in parts[i]
    ensures '\n' !in Text.Join(parts, sep)
    decreases |parts|
  {
    if |parts| > 1 {
      NoNewlineInJoin(parts[1..], sep);
    }
  }

  /** A shown number or date reads back as the value it shows. */
  lemma RenderReadsBack(v: Value, title: string -> string)
    ensures v.Str? ==> Render(v, title) == title(v.s)
    ensures v.Int? ==> Text.ParseInt(Render(v, title)) == Some(v.n)
    ensures v.Day? ==>
              var r := Render(v, title);
              && |r| == 10
              && Text.ParseInt(r[..4]) == Some(v.d.year)
              && Text.ParseInt(r[5..7]) == Some(v.d.month)
              && Text.ParseInt(r[8..]) == Some(v.d.day)
    ensures v.IntList? ==>
              var r := Render(v, title);
              |r| >= 2 && r[0] == '[' && r[|r| - 1] == ']'
  {
    if v.Int? {
      Text.ParseIntToString(v.n);
    } else if v.Day? {
      Dates.IsoFormatReadsBack(v.d);
    }
  }

  lemma NoNewlineInValue(v: Value, title: string -> string)
    requires v.Str? ==> '\n' !in title(v.s)
    ensures '\n' !in Render(v, title)
  {
    match v
    case Str(_) =>
    case Int(n) => NoNewlineInNumber(n);
    case Day(d) =>
      var r := Dates.IsoFormat(d);
      assert forall i :: 0 <= i < |r| ==> r[i] != '\n';
    case IntList(ns) =>
      var parts := seq(|ns|, i requires 0 <= i < |ns| => Text.IntToString(ns[i]));
      forall i | 0 <= i < |parts| ensures '\n' !in parts[i] {
        NoNewlineInNumber(ns[i]);
      }
      NoNewlineInJoin(parts, ", ");
  }

  /** `format_dict` writes "\n" and then exactly one line per entry, in iteration order. */
  lemma FormatDictLines(fields: Fields, indent: string, title: string -> string)
    requires SingleLine(fields, indent, title)
    ensures Text.Split(FormatDict(fields, indent, title), '\n') == [""] + BodyLines(fields, indent, title)
  {
    var body := Text.Join(Lines(fields, indent, title), "\n");
    BodySplit(fields, indent, title);
    Text.SplitAround("", '\n', body);
    assert FormatDict(fields, indent, title) == "" + ['\n'] + body;
  }

  /**
   * `format_books_dict` writes "\n" and then, for each record in iteration
   * order, its "ID: id" heading followed by the record's own lines.
   */
  lemma {:induction false} FormatBooksDictLines(records: seq<(int, Fields)>, indent: string, title: string -> string)
    requires |records| > 0
    requires forall i :: 0 <= i < |records| ==> SingleLine(records[i].1, indent, title)
    ensures Text.Split(FormatBooksDict(records, indent, title), '\n') == [""] + SectionLines(records, indent, title)
  {
    Text.SplitAround("", '\n', Text.Join(Sections(records, indent, title), "\n"));
    assert FormatBooksDict(records, indent, title) == "" + ['\n'] + Text.Join(Sections(records, indent, title), "\n");
    SplitSections(records, indent, title);
  }

  lemma HeadingSingleLine(id: int, indent: string)
    requires '\n' !in indent
    ensures '\n' !in Heading(id, indent)
  {
    NoNewlineInNumber(id);
  }

  lemma BodySplit(fields: Fields, indent: string, title: string -> string)
    requires SingleLine(fields, indent, title)
    ensures Text.Split(Text.Join(Lines(fields, indent, title), "\n"), '\n') == BodyLines(fields, indent, title)
  {
    var lines := Lines(fields, indent, title);
    if |lines| > 0 {
      forall i | 0 <= i < |lines| ensures '\n' !in lines[i] {
        NoNewlineInValue(fields[i].1, title);
      }
      Text.SplitJoin(lines, '\n');
    }
  }

  /** One record of a books listing splits into its heading and its own lines. */
  lemma SectionSplit(record: (int, Fields), indent: string, title: string -> string)
    requires SingleLine(record.1, indent, title)
    ensures Text.Split(Heading(record.0, indent) + FormatDict(record.1, indent, title), '\n')
            == [Heading(record.0, indent)] + BodyLines(record.1, indent, title)
  {
    var heading := Heading(record.0, indent);
    var body := Text.Join(Lines(record.1, indent, title), "\n");
    assert heading + FormatDict(record.1, indent, title) == heading + ['\n'] + body;
    HeadingSingleLine(record.0, indent);
    BodySplit(record.1, indent, title);
    Text.SplitAround(heading, '\n', body);
    Text.SplitWithoutSeparator(heading, '\n');
  }

  lemma {:induction false} SplitSections(records: seq<(int, Fields)>, indent: string, title: string -> string)
    requires |records| > 0
    requires forall i :: 0 <= i < |records| ==> SingleLine(records[i].1, indent, title)
    ensures Text.Split(Text.Join(Sections(records, indent, title), "\n"), '\n') == SectionLines(records, indent, title)
    decreases |records|
  {
    var parts := Sections(records, indent, title);
    var first := [Heading(records[0].0, indent)] + BodyLines(records[0].1, indent, title);
    SectionSplit(records[0], indent, title);
    assert Text.Split(parts[0], '\n') == first;
    assert SectionLines(records, indent, title) == first + SectionLines(records[1..], indent, title);
    if |records| == 1 {
      assert SectionLines(records[1..], indent, title) == [];
      assert Text.Join(parts, "\n") == parts[0];
    } else {
      assert Sections(records[1..], indent, title) == parts[1..];
      SplitSections(records[1..], indent, title);
      Text.SplitJoinCons(parts, '\n');
    }
  }

  /** A one-line heading followed by a books listing splits into the heading and the listing's lines. */
  lemma HeadedBooksDictLines(heading: string, records: seq<(int, Fields)>, indent: string, title: string -> string)
    requires '\n' !in heading
    requires |records| > 0
    requires forall i :: 0 <= i < |records| ==> SingleLine(records[i].1, indent, title)
    ensures Text.Split(heading + FormatBooksDict(records, indent, title), '\n')
            == [heading] + SectionLines(records, indent, title)
  {
    var sections := Text.Join(Sections(records, indent, title), "\n");
    var text := heading + FormatBooksDict(records, indent, title);
    assert text == heading + ['\n'] + sections;
    Text.SplitAround(heading, '\n', sections);
    Text.SplitWithoutSeparator(heading, '\n');
    SplitSections(records, indent, title);
    assert Text.Split(text, '\n') == [heading] + Text.Split(sections, '\n');
  }
}

=== FILE: library.dfy ===
/**
 * The record keeper's data and one pass of its menu loop. The three
 * module-level dicts become one immutable `Library` value; each menu option
 * is a function from the library (and the operator's reply) to the next
 * library and the text the option prints.
 */
module Library {
  import opened Wrappers
  import Text
  import opened Dates
  import opened Dicts
  import opened Fines
  import Formatting

  /** A member dict: "name", "member since", "issued books". */
  datatype Member = Member(name: string, memberSince: Date, issuedBooks: seq<int>)

  /** A book dict: "name", "author", "published year". */
  datatype Book = Book(name: string, author: string, publishedYear: int)

  /**
   * `members`, `books` and `issued_books`. Only the books table and each
   * member's issue table are ever listed, so only they keep their order.
   */
  datatype Library = Library(
    members: map<int, Member>,
    books: Dict<int, Book>,
    issued: map<int, Issues>)

  /** What one pass of the loop prints, or that it leaves the loop. */
  datatype Output = Printed(text: string) | Silent | Exit

  datatype StepResult = StepResult(library: Library, output: Output)

  /** Every dict in the library is a genuine dictionary. */
  predicate Valid(lib: Library)
  {
    && lib.books.Valid()
    && forall m :: m in lib.issued ==> lib.issued[m].Valid()
  }

  /** Menu options run from 1 to 8. */
  predicate InRange(option: int)
  {
    1 <= option <= 8
  }

  const INDENT := "    "

  /** A member dict: its three keys in insertion order, each holding the member's own value. */
  function MemberFields(m: Member): (fields: Formatting.Fields)
    ensures Dict(fields).Valid()
    ensures Dict(fields).Keys() == ["name", "member since", "issued books"]
    ensures Dict(fields).Get("name") == Some(Formatting.Str(m.name))
    ensures Dict(fields).Get("member since") == Some(Formatting.Day(m.memberSince))
    ensures Dict(fields).Get("issued books") == Some(Formatting.IntList(m.issuedBooks))
  {
    [("name", Formatting.Str(m.name)),
     ("member since", Formatting.Day(m.memberSince)),
     ("issued books", Formatting.IntList(m.issuedBooks))]
  }

  /** A book dict: its three keys in insertion order, each holding the book's own value. */
  function BookFields(b: Book): (fields: Formatting.Fields)
    ensures Dict(fields).Valid()
    ensures Dict(fields).Keys() == ["name", "author", "published year"]
    ensures Dict(fields).Get("name") == Some(Formatting.Str(b.name))
    ensures Dict(fields).Get("author") == Some(Formatting.Str(b.author))
    ensures Dict(fields).Get("published year") == Some(Formatting.Int(b.publishedYear))
  {
    [("name", Formatting.Str(b.name)),
     ("author", Formatting.Str(b.author)),
     ("published year", Formatting.Int(b.publishedYear))]
  }

  /** An issue dict; the "fine amount" key exists only once a fine has been written. */
  function IssueFields(issue: Issue): (fields: Formatting.Fields)
    ensures Dict(fields).Valid()
    ensures Dict(fields).Get("issued date") == Some(Formatting.Day(issue.issuedDate))
    ensures Dict(fields).Get("issued until") == Some(Formatting.Day(issue.issuedUntil))
    ensures Dict(fields).Get("fine amount") == if issue.fine.Some? then Some(Formatting.Int(issue.fine.value)) else None
    ensures Dict(fields).Keys()[..2] == ["issued date", "issued until"]
  {
    var dates := [("issued date", Formatting.Day(issue.issuedDate)),
                  ("issued until", Formatting.Day(issue.issuedUntil))];
    if issue.fine.Some? then
      var fields := dates + [("fine amount", Formatting.Int(issue.fine.value))];
      assert fields[2].0 == "fine amount" && Dict(fields).Valid();
      fields
    else
      assert Dict(dates).Keys() == ["issued date", "issued until"];
      dates
  }

  /** The books table as `format_books_dict` walks it: ids in order, each with its book's dict. */
  function BookRecords(books: Dict<int, Book>): (records: seq<(int, Formatting.Fields)>)
    ensures |records| == |books.items|
    ensures forall i :: 0 <= i < |records| ==>
              records[i].0 == books.Keys()[i] && records[i].1 == BookFields(books.items[i].1)
  {
    seq(|books.items|, i requires 0 <= i < |books.items| => (books.items[i].0, BookFields(books.items[i].1)))
  }

  function IssueRecords(issues: Issues): seq<(int, Formatting.Fields)>
  {
    seq(|issues.items|, i requires 0 <= i < |issues.items| => (issues.items[i].0, IssueFields(issues.items[i].1)))
  }

  function NoSuchMember(id: int): Output
  {
    Printed("Member with ID " + Text.IntToString(id) + " does not exist.")
  }

  // ---------------------------------------------------------------------------
  // the menu options
  // ---------------------------------------------------------------------------

  /**
   * Option 1, "View Member Details": the member's issued book ids are
   * appended to their "issued books" list, then the member is shown.
   */
  function ViewMember(lib: Library, id: int, title: string -> string): (r: StepResult)
    ensures id !in lib.members ==> r == StepResult(lib, NoSuchMember(id))
    ensures r.library.books == lib.books && r.library.issued == lib.issued
    ensures r.library.members.Keys == lib.members.Keys
    ensures forall m :: m in lib.members && m != id ==> r.library.members[m] == lib.members[m]
    ensures id in lib.members ==>
              var before := lib.members[id];
              var after := r.library.members[id];
              && after.name == before.name
              && after.memberSince == before.memberSince
              && after.issuedBooks == before.issuedBooks
                   + (if id in lib.issued then lib.issued[id].Keys() else [])
  {
    if id !in lib.members then StepResult(lib, NoSuchMember(id))
    else
      var member := lib.members[id];
      var member' :=
        if id in lib.issued then member.(issuedBooks := member.issuedBooks + lib.issued[id].Keys())
        else member;
      StepResult(lib.(members := lib.members[id := member']),
                 Printed(Formatting.FormatDict(MemberFields(member'), "", title)))
  }

  function NoSuchBook(id: int): Output
  {
    Printed("Book with ID " + Text.IntToString(id) + " does not exist.")
  }

  /** Option 2, "View Book Details": the book's dict when the id is known, the not-found message otherwise. */
  function ViewBook(lib: Library, id: int, title: string -> string): (r: StepResult)
    ensures r.library == lib
    ensures r.output == NoSuchBook(id) <==> id !in lib.books.Keys()
    ensures lib.books.Valid() ==>
              forall i :: 0 <= i < |lib.books.items| && lib.books.items[i].0 == id ==>
                r.output == Printed(Formatting.FormatDict(BookFields(lib.books.items[i].1), "", title))
  {
    match lib.books.Get(id)
    case None => StepResult(lib, NoSuchBook(id))
    case Some(book) => StepResult(lib, Printed(Formatting.FormatDict(BookFields(book), "", title)))
  }

  const INVENTORY_HEADING := "Books currently in inventory:"

  /** Option 3, "View Inventory": the heading, then `format_books_dict` of the books table. */
  function ViewInventory(lib: Library, title: string -> string): (r: StepResult)
    ensures r.library == lib
    ensures r.output == Printed(INVENTORY_HEADING + Formatting.FormatBooksDict(BookRecords(lib.books), INDENT, title))
  {
    StepResult(lib, Printed(INVENTORY_HEADING
                            + Formatting.FormatBooksDict(BookRecords(lib.books), INDENT, title)))
  }

  /**
   * Option 4, "View Issued Books": fines are assessed on the member's
   * issues, then the issues are listed.
   */
  function ViewIssued(lib: Library, id: int, today: Date, title: string -> string): (r: StepResult)
    ensures id !in lib.members ==> r == StepResult(lib, NoSuchMember(id))
    ensures id in lib.members && (id !in lib.issued || |lib.issued[id].items| == 0) ==> r.library == lib
    ensures r.library.members == lib.members && r.library.books == lib.books
    ensures r.library.issued.Keys == lib.issued.Keys
    ensures forall m :: m in lib.issued && m != id ==> r.library.issued[m] == lib.issued[m]
    ensures id in lib.members && id in lib.issued ==>
              r.library.issued[id] == AssessFines(lib.issued[id], today)
  {
    if id !in lib.members then StepResult(lib, NoSuchMember(id))
    else if id !in lib.issued || |lib.issued[id].items| == 0 then
      StepResult(lib, Printed("Member with ID " + Text.IntToString(id) + " does not have any issued books."))
    else
      var issues := AssessFines(lib.issued[id], today);
      StepResult(lib.(issued := lib.issued[id := issues]),
                 Printed("Books issued to " + lib.members[id].name + " (" + Text.IntToString(id) + "):"
                         + " " + Formatting.FormatBooksDict(IssueRecords(issues), INDENT, title)))
  }

  /**
   * One pass of the menu loop for the chosen `option`. `id` is the member or
   * book id the option asks for, `today` the clock's date, `title` Python's
   * `str.title`.
   */
  function Step(lib: Library, option: int, id: int, today: Date, title: string -> string): (r: StepResult)
    ensures !InRange(option) ==> r == StepResult(lib, Printed("Selected option is out of range"))
    ensures option !in {1, 4} ==> r.library == lib
    ensures r.output == Exit <==> option == 8
  {
    if !InRange(option) then StepResult(lib, Printed("Selected option is out of range"))
    else if option == 1 then ViewMember(lib, id, title)
    else if option == 2 then ViewBook(lib, id, title)
    else if option == 3 then ViewInventory(lib, title)
    else if option == 4 then ViewIssued(lib, id, today, title)
    else if option == 8 then StepResult(lib, Exit)
    else StepResult(lib, Silent)
  }

  /** The module-level data at start-up; `startup` is the date the program was started. */
  function Initial(startup: Date): (lib: Library)
    ensures Valid(lib)
    ensures lib.members.Keys == {1} && lib.issued.Keys == {1} && lib.books.Keys() == [1]
    ensures lib.members[1].memberSince == startup && lib.members[1].issuedBooks == []
    ensures lib.issued[1].Keys() == [1] && lib.issued[1].items[0].1.fine.None?
  {
    Library(
      map[1 := Member("Souvic Das", startup, [])],
      Dict([(1, Book("Sherlock Holmes Vol. 1", "Arthur Conan Doyle", 1887))]),
      map[1 := Dict([(1, Issue(CalendarDate(2022, 10, 1), CalendarDate(2022, 11, 1), None))])])
  }

  // ---------------------------------------------------------------------------
  // properties of the loop
  // ---------------------------------------------------------------------------

  /** Only options 1 to 8 pass the range check; 5, 6 and 7 pass it but reach no branch. */
  lemma UnhandledOptions(lib: Library, option: int, id: int, today: Date, title: string -> string)
    requires 5 <= option <= 7
    ensures Step(lib, option, id, today, title) == StepResult(lib, Silent)
  {
  }

  /** Every option keeps every dict a genuine dictionary. */
  lemma StepKeepsValid(lib: Library, option: int, id: int, today: Date, title: string -> string)
    requires Valid(lib)
    ensures Valid(Step(lib, option, id, today, title).library)
  {
    if InRange(option) && option == 4 && id in lib.members && id in lib.issued {
      AssessFinesValid(lib.issued[id], today);
    }
  }

  /** Viewing a member is not idempotent: a second view appends the same ids again. */
  lemma ViewMemberTwice(lib: Library, id: int, title: string -> string)
    requires id in lib.members && id in lib.issued
    ensures
      var once := ViewMember(lib, id, title).library;
      var twice := ViewMember(once, id, title).library;
      twice.members[id].issuedBooks
        == lib.members[id].issuedBooks + lib.issued[id].Keys() + lib.issued[id].Keys()
  {
  }

  /** `title` puts no newline into a book dict's keys or text values. */
  predicate TitleKeepsBooksOneLine(books: Dict<int, Book>, title: string -> string)
  {
    && '\n' !in title("name") && '\n' !in title("author") && '\n' !in title("published year")
    && forall i :: 0 <= i < |books.items| ==>
         '\n' !in title(books.items[i].1.name) && '\n' !in title(books.items[i].1.author)
  }

  /**
   * The inventory listing is its heading line, then for every book in
   * table order an "ID: id" line followed by the book's name, author and
   * published year lines.
   */
  lemma InventoryLines(lib: Library, title: string -> string)
    requires |lib.books.items| > 0
    requires TitleKeepsBooksOneLine(lib.books, title)
    ensures Text.Split(ViewInventory(lib, title).output.text, '\n')
            == [INVENTORY_HEADING] + Formatting.SectionLines(BookRecords(lib.books), INDENT, title)
  {
    BookRecordsOneLine(lib.books, title);
    assert '\n' !in INVENTORY_HEADING;
    Formatting.HeadedBooksDictLines(INVENTORY_HEADING, BookRecords(lib.books), INDENT, title);
  }

  lemma BookRecordsOneLine(books: Dict<int, Book>, title: string -> string)
    requires TitleKeepsBooksOneLine(books, title)
    ensures forall i :: 0 <= i < |books.items| ==> Formatting.SingleLine(BookRecords(books)[i].1, INDENT, title)
  {
    forall i | 0 <= i < |books.items| ensures Formatting.SingleLine(BookRecords(books)[i].1, INDENT, title) {
      BookOneLine(books.items[i].1, title);
    }
  }

  lemma BookOneLine(book: Book, title: string -> string)
    requires '\n' !in title("name") && '\n' !in title("author") && '\n' !in title("published year")
    requires '\n' !in title(book.name) && '\n' !in title(book.author)
    ensures Formatting.SingleLine(BookFields(book), INDENT, title)
  {
  }

  /** The start-up data is well formed, and its sample loan runs 31 days. */
  lemma InitialFacts(startup: Date)
    ensures Valid(Initial(startup))
    ensures var loan := Initial(startup).issued[1].items[0].1;
            DaysBetween(loan.issuedDate, loan.issuedUntil) == 31
  {
  }
}

=== FILE: text.dfy ===
/**
 * The string primitives the record keeper relies on: Python's `str.split`
 * with a one-character separator, `str.join`, the whitespace stripping and
 * digit grammar of `int(text)`, and `str(n)` for integers.
 */
module Text {
  import opened Wrappers

  // ---------------------------------------------------------------------------
  // split / join
  // ---------------------------------------------------------------------------

  /** Number of occurrences of `c` in `s`. */
  function Occurrences(s: string, c: char): nat
  {
    if |s| == 0 then 0
    else (if s[0] == c then 1 else 0) + Occurrences(s[1..], c)
  }

  /**
   * Python's `s.split(c)`: the maximal separator-free pieces of `s`, in order.
   * There is always one more piece than there are separators.
   */
  function Split(s: string, c: char): (pieces: seq<string>)
    ensures |pieces| == Occurrences(s, c) + 1
    ensures forall i :: 0 <= i < |pieces| ==> c !in pieces[i]
    decreases |s|
  {
    if |s| == 0 then [""]
    else
      var rest := Split(s[1..], c);
      if s[0] == c then [""] + rest
      else [[s[0]] + rest[0]] + rest[1..]
  }

  /**
   * Python's `sep.join(parts)`: the parts in order with `sep` between
   * neighbours, so the text starts with the first part followed by `sep`.
   */
  function Join(parts: seq<string>, sep: string): (r: string)
    ensures |parts| > 0 ==> parts[0] <= r
    ensures |parts| > 1 ==> parts[0] + sep <= r
    decreases |parts|
  {
    if |parts| == 0 then ""
    else if |parts| == 1 then parts[0]
    else parts[0] + sep + Join(parts[1..], sep)
  }

  lemma JoinThree(a: string, b: string, c: string, sep: string)
    ensures Join([a, b, c], sep) == a + sep + b + sep + c
  {
    assert [b, c][1..] == [c];
    assert Join([b, c], sep) == b + sep + c;
    assert [a, b, c][1..] == [b, c];
    assert Join([a, b, c], sep) == a + sep + (b + sep + c);
  }

  /** Splitting a join of two or more parts splits the first part and the join of the rest separately. */
  lemma SplitJoinCons(parts: seq<string>, c: char)
    requires |parts| > 1
    ensures Split(Join(parts, [c]), c) == Split(parts[0], c) + Split(Join(parts[1..], [c]), c)
  {
    assert Join(parts, [c]) == parts[0] + [c] + Join(parts[1..], [c]);
    SplitAround(parts[0], c, Join(parts[1..], [c]));
  }

  /** A text without the separator splits into itself alone. */
  lemma {:induction false} SplitWithoutSeparator(s: string, c: char)
    requires c !in s
    ensures Split(s, c) == [s]
    decreases |s|
  {
    if |s| > 0 {
      assert c !in s[1..] by {
        forall i | 0 <= i < |s[1..]| ensures s[1..][i] != c {
          assert s[1..][i] == s[i + 1];
        }
      }
      SplitWithoutSeparator(s[1..], c);
      assert s == [s[0]] + s[1..];
    }
  }

  /** Splitting at one separator occurrence splits both sides independently. */
  lemma {:induction false} SplitAround(a: string, c: char, b: string)
    ensures Split(a + [c] + b, c) == Split(a, c) + Split(b, c)
    decreases |a|
  {
    var s := a + [c] + b;
    if |a| == 0 {
      assert s == [c] + b;
      assert s[1..] == b;
    } else {
      assert s[1..] == a[1..] + [c] + b;
      SplitAround(a[1..], c, b);
    }
  }

  /** Joining separator-free, non-empty lists of pieces and splitting again gives the pieces back. */
  lemma {:induction false} SplitJoin(parts: seq<string>, c: char)
    requires |parts| > 0
    requires forall i :: 0 <= i < |parts| ==> c !in parts[i]
    ensures Split(Join(parts, [c]), c) == parts
    decreases |parts|
  {
    if |parts| == 1 {
      SplitWithoutSeparator(parts[0], c);
    } else {
      SplitJoin(parts[1..], c);
      SplitAround(parts[0], c, Join(parts[1..], [c]));
      SplitWithoutSeparator(parts[0], c);
      assert parts == [parts[0]] + parts[1..];
    }
  }

  /** Splitting and joining again with the same separator gives the text back. */
  lemma {:induction false} JoinSplit(s: string, c: char)
    ensures Join(Split(s, c), [c]) == s
    decreases |s|
  {
    if |s| > 0 {
      var rest := Split(s[1..], c);
      JoinSplit(s[1..], c);
      if s[0] == c {
        assert Split(s, c) == [""] + rest;
        assert ([""] + rest)[1..] == rest;
        assert s == [c] + s[1..];
      } else {
        var pieces := [[s[0]] + rest[0]] + rest[1..];
        assert Split(s, c) == pieces;
        if |rest| == 1 {
          assert s == [s[0]] + s[1..];
        } else {
          assert pieces[1..] == rest[1..];
          assert Join(rest, [c]) == rest[0] + [c] + Join(rest[1..], [c]);
          assert s == [s[0]] + s[1..];
        }
      }
    }
  }

  // ---------------------------------------------------------------------------
  // int(text)
  // ---------------------------------------------------------------------------

  /** The ASCII whitespace `int` skips around its digits. */
  predicate IsSpace(c: char)
  {
    c == ' ' || c == '\t' || c == '\n' || c == '\r' || c == '\U{0B}' || c == '\U{0C}'
  }

  predicate IsDigit(c: char)
  {
    '0' <= c <= '9'
  }

  function DigitValue(c: char): nat
    requires IsDigit(c)
  {
    c as int - '0' as int
  }

  function DigitChar(d: nat): (c: char)
    requires d < 10
    ensures IsDigit(c) && DigitValue(c) == d
  {
    ('0' as int + d) as char
  }

  /** `s` with its leading whitespace removed. */
  function TrimStart(s: string): (r: string)
    ensures |r| <= |s| && r == s[|s| - |r|..]
    ensures |r| == 0 || !IsSpace(r[0])
    decreases |s|
  {
    if |s| > 0 && IsSpace(s[0]) then TrimStart(s[1..]) else s
  }

  /** `s` with its trailing whitespace removed. */
  function TrimEnd(s: string): (r: string)
    ensures |r| <= |s| && r == s[..|r|]
    ensures |r| == 0 || !IsSpace(r[|r| - 1])
    decreases |s|
  {
    if |s| > 0 && IsSpace(s[|s| - 1]) then TrimEnd(s[..|s| - 1]) else s
  }

  /** Python's `s.strip()` restricted to ASCII whitespace. */
  function Strip(s: string): (r: string)
    ensures |r| == 0 || (!IsSpace(r[0]) && !IsSpace(r[|r| - 1]))
  {
    var t := TrimStart(s);
    var r := TrimEnd(t);
    assert |r| > 0 ==> r[0] == t[0];
    r
  }

  /**
   * The digit part accepted by `int(text)` in base 10: decimal digits, with
   * single underscores allowed between two digits.
   */
  predicate WellFormedDigits(s: string)
  {
    && |s| > 0
    && IsDigit(s[0])
    && IsDigit(s[|s| - 1])
    && (forall i :: 0 <= i < |s| ==> IsDigit(s[i]) || s[i] == '_')
    && (forall i :: 0 < i < |s| ==> s[i] == '_' ==> s[i - 1] != '_')
  }

  predicate AllDigits(s: string)
  {
    forall i :: 0 <= i < |s| ==> IsDigit(s[i])
  }

  /** `s` with its underscores removed. */
  function RemoveUnderscores(s: string): (r: string)
    requires forall i :: 0 <= i < |s| ==> IsDigit(s[i]) || s[i] == '_'
    ensures AllDigits(r)
    ensures |r| <= |s|
    decreases |s|
  {
    if |s| == 0 then ""
    else (if s[0] == '_' then "" else [s[0]]) + RemoveUnderscores(s[1..])
  }

  /** The number a string of decimal digits denotes (most significant digit first). */
  function DigitsValue(s: string): nat
    requires AllDigits(s)
    decreases |s|
  {
    if |s| == 0 then 0
    else DigitsValue(s[..|s| - 1]) * 10 + DigitValue(s[|s| - 1])
  }

  /** The magnitude denoted by a digit part, if it is well formed. */
  function ParseMagnitude(s: string): (r: Option<nat>)
    ensures r.Some? <==> WellFormedDigits(s)
  {
    if WellFormedDigits(s) then Some(DigitsValue(RemoveUnderscores(s))) else None
  }

  /**
   * Python's `int(text)`: surrounding whitespace, an optional sign, then a
   * well-formed digit part; anything else raises `ValueError` (here `None`).
   */
  function ParseInt(s: string): (r: Option<int>)
    ensures r.Some? ==>
              var t := Strip(s);
              && |t| > 0 && IsDigit(t[|t| - 1])
              && forall i :: 0 <= i < |t| ==> IsDigit(t[i]) || t[i] == '_' || (i == 0 && (t[i] == '-' || t[i] == '+'))
    ensures r.Some? && r.value < 0 ==> |Strip(s)| > 0 && Strip(s)[0] == '-'
  {
    var t := Strip(s);
    if |t| > 0 && (t[0] == '-' || t[0] == '+') then
      match ParseMagnitude(t[1..])
      case None => None
      case Some(v) =>
        var n: int := v;
        Some(if t[0] == '-' then -n else n)
    else
      match ParseMagnitude(t)
      case None => None
      case Some(v) =>
        var n: int := v;
        Some(n)
  }

  // ---------------------------------------------------------------------------
  // str(n)
  // ---------------------------------------------------------------------------

  /** The shortest decimal digit string of `n`. */
  function NatToDigits(n: nat): (s: string)
    ensures |s| > 0 && AllDigits(s)
    ensures DigitsValue(s) == n
  {
    var d := DigitChar(n % 10);
    if n < 10 then
      assert [d][..0] == [];
      [d]
    else
      var init := NatToDigits(n / 10);
      assert (init + [d])[..|init|] == init;
      init + [d]
  }

  /** Python's `str(n)` for an integer. */
  function IntToString(n: int): (s: string)
    ensures |s| > 0
    ensures s[0] == '-' <==> n < 0
    ensures n >= 0 ==> AllDigits(s) && DigitsValue(s) == n
    ensures n < 0 ==> AllDigits(s[1..]) && DigitsValue(s[1..]) == -n
  {
    if n < 0 then "-" + NatToDigits(-n) else NatToDigits(n)
  }

  /** `str(n)` has no leading zero: its digits start with '0' only for zero itself, written "0". */
  lemma {:induction false} NatToDigitsCanonical(n: nat)
    ensures NatToDigits(n)[0] == '0' <==> n == 0
    ensures n == 0 ==> NatToDigits(n) == "0"
    decreases n
  {
    if n >= 10 {
      NatToDigitsCanonical(n / 10);
      assert NatToDigits(n)[0] == NatToDigits(n / 10)[0];
    }
  }

  /**
   * The digits of `str(n)` after any sign start with '0' only when `n` is
   * zero, and zero is written "0".
   */
  lemma IntToStringCanonical(n: int)
    ensures n < 0 ==> |IntToString(n)| > 1 && IntToString(n)[1] != '0'
    ensures n >= 0 ==> (IntToString(n)[0] == '0' <==> n == 0)
    ensures n == 0 ==> IntToString(n) == "0"
  {
    if n < 0 {
      var digits := NatToDigits(-n);
      NatToDigitsCanonical(-n);
      assert IntToString(n) == "-" + digits;
      assert IntToString(n)[1] == digits[0];
    } else {
      NatToDigitsCanonical(n);
    }
  }

  /** Numbers below 10, 100, 1000 and 10000 have at most 1, 2, 3 and 4 digits. */
  lemma {:induction false} ShortDigits(n: nat)
    ensures n < 10 ==> |NatToDigits(n)| == 1
    ensures n < 100 ==> |NatToDigits(n)| <= 2
    ensures n < 1000 ==> |NatToDigits(n)| <= 3
    ensures n < 10000 ==> |NatToDigits(n)| <= 4
    decreases n
  {
    if n >= 10 {
      ShortDigits(n / 10);
    }
  }

  /** `k` zero digits. */
  function Zeros(k: nat): (z: string)
    ensures |z| == k
    ensures forall i :: 0 <= i < k ==> z[i] == '0'
  {
    if k == 0 then "" else "0" + Zeros(k - 1)
  }

  /** `s` left-padded with zeros to at least `width` characters, as `%0<width>d` does for a non-negative number. */
  function PadZeros(s: string, width: nat): (r: string)
    ensures |r| == if |s| >= width then |s| else width
    ensures r[|r| - |s|..] == s
    ensures forall i :: 0 <= i < |r| - |s| ==> r[i] == '0'
  {
    if |s| >= width then s else Zeros(width - |s|) + s
  }

  /** `PadZeros(IntToString(n), width)` for a non-negative `n`. */
  function NatToPadded(n: nat, width: nat): (s: string)
    ensures |s| > 0 && AllDigits(s)
  {
    PadZeros(NatToDigits(n), width)
  }

  // ---------------------------------------------------------------------------
  // round trips
  // ---------------------------------------------------------------------------

  lemma StripUnpadded(s: string)
    requires |s| > 0 && !IsSpace(s[0]) && !IsSpace(s[|s| - 1])
    ensures Strip(s) == s
  {
  }

  lemma {:induction false} RemoveUnderscoresOfDigits(s: string)
    requires AllDigits(s)
    ensures RemoveUnderscores(s) == s
    decreases |s|
  {
    if |s| > 0 {
      RemoveUnderscoresOfDigits(s[1..]);
      assert s == [s[0]] + s[1..];
    }
  }

  /** A leading zero does not change the value of a digit string. */
  lemma {:induction false} LeadingZero(s: string)
    requires AllDigits(s)
    ensures DigitsValue("0" + s) == DigitsValue(s)
    decreases |s|
  {
    var t := "0" + s;
    if |s| > 0 {
      assert t[..|t| - 1] == "0" + s[..|s| - 1];
      LeadingZero(s[..|s| - 1]);
    } else {
      assert t[..|t| - 1] == "";
    }
  }

  lemma {:induction false} LeadingZeros(k: nat, s: string)
    requires AllDigits(s)
    ensures AllDigits(Zeros(k) + s)
    ensures DigitsValue(Zeros(k) + s) == DigitsValue(s)
    decreases k
  {
    if k > 0 {
      var z := Zeros(k - 1);
      assert Zeros(k) + s == "0" + (z + s);
      LeadingZeros(k - 1, s);
      LeadingZero(z + s);
    } else {
      assert Zeros(k) + s == s;
    }
  }

  /** A well-formed plain digit string parses to its value. */
  lemma ParseDigitsOnly(s: string)
    requires |s| > 0 && AllDigits(s)
    ensures ParseInt(s) == Some(DigitsValue(s) as int)
  {
    StripUnpadded(s);
    assert !(s[0] == '-' || s[0] == '+');
    RemoveUnderscoresOfDigits(s);
    assert WellFormedDigits(s);
    assert ParseMagnitude(s) == Some(DigitsValue(s));
  }

  /** `int(str(n)) == n` for every integer. */
  lemma ParseIntToString(n: int)
    ensures ParseInt(IntToString(n)) == Some(n)
  {
    var s := IntToString(n);
    if n < 0 {
      var m := NatToDigits(-n);
      assert s == "-" + m && s[1..] == m;
      StripUnpadded(s);
      RemoveUnderscoresOfDigits(m);
      assert WellFormedDigits(m);
    } else {
      ParseDigitsOnly(s);
    }
  }

  /** `int` also reads the zero-padded decimal form of a non-negative number. */
  lemma ParsePadded(n: nat, width: nat)
    ensures ParseInt(NatToPadded(n, width)) == Some(n)
  {
    var m := NatToDigits(n);
    if |m| < width {
      LeadingZeros(width - |m|, m);
    }
    ParseDigitsOnly(NatToPadded(n, width));
  }
}

=== FILE: wrappers.dfy ===
/** Optional values and results shared by the whole model. */
module Wrappers {

  /** A value that may be absent: Python's `None` versus a present value. */
  datatype Option<+T> = None | Some(value: T)

  /** The outcome of an operation that can raise: a value, or the error it raised. */
  datatype Result<+T, +E> = Success(value: T) | Failure(error: E)
}
